=== FILE: README.md ===
# Pose and specimen layer of cryojax, in Dafny

This project models three small, pure pieces of cryojax's cryo-EM image simulator:

- **`convert_quaternion_to_euler_angles`** (`Rotations`). It validates a three-letter axis convention and maps the letters to array axes. It tells proper-Euler (symmetric) conventions from Tait-Bryan (asymmetric) ones and computes the permutation sign. It classifies the middle angle as general, north pole or south pole (gimbal lock). It assembles the three angles from the half-sum and half-difference angles, wraps them into [-pi, pi) and converts them to degrees. `Angles` holds pi, Python's floored float modulus by 2*pi, the wrap and the radian-to-degree factor.
- **Poses** (`Pose`). A pose is a closed union of `EulerPose` and `QuaternionPose`, each with its default field values. Its `transform` returns the density unchanged beside row-wise rigidly transformed coordinates `p -> R p + (tx, ty, 0)` in real space, and fails in Fourier space. The module also covers the four functional helpers `rotate_and_translate_rpy`, `rotate_and_translate_wxyz`, `rotate_rpy` and `rotate_wxyz`. The quaternion path uses the unit-quaternion rotation matrix. The model proves that matrix orthonormal for a unit quaternion, so a quaternion pose keeps every pairwise distance.
- **`AtomCloud`** (`AtomDensity`). It is a value type with a construction check that refuses Fourier-space clouds. `rotate_to` is a functional update that replaces only the coordinates. `from_file`, `from_stack` and `__getitem__` always fail.

`Failures` holds the error kinds (`ValueError` for the two convention errors, `NotImplementedError`) and the `Result` type that carries them in place of exceptions.

Modelling choices:

- Floating point is modelled as exact `real` arithmetic. Pi is `3.141592653589793`, the shortest decimal that rounds to float64 pi, and `eps` is `1e-7`.
- `jnp.arctan2` and `jnp.hypot` are passed in as a `Trig` value of two functions. So are jaxlie's `SO3.from_rpy_radians` and `SO3.from_quaternion_xyzw`, as an `So3` value.
- `jnp.empty` is modelled as an array of zeros, which is what JAX returns. The conversion never assigns the third angle at a pole, so that angle comes out as exactly 0.
- The `EulerPose` docstrings (pose.py:66-70) give phi and psi as (-pi, pi] and theta as (0, pi]; the wrap yields [-pi, pi), and the model follows the code. The docstring documents the input range of the pose angles, not a range the conversion promises.
- `//` in the sign formula is Python floor division. Dafny's `/` agrees with it for the positive divisor 2.
- Euler pose angles are passed to `SO3.from_rpy_radians` (pose.py:170), so the model treats them as radians.

## Model

| member | source | states |
|---|---|---|
| Angles.ModTwoPi | src/cryojax/rotations/_utils.py:60 | the floored modulus by 2*pi lies in [0, 2*pi) and differs from its argument by whole turns |
| Angles.Wrap | src/cryojax/rotations/_utils.py:60 | the final wrap puts every angle in [-pi, pi) and changes it by a whole number of turns |
| Angles.WrapFixesPrincipal | src/cryojax/rotations/_utils.py:60 | an angle already in [-pi, pi) passes through the wrap unchanged |
| Angles.WrapRespectsTurns | src/cryojax/rotations/_utils.py:60 | angles a whole number of turns apart wrap to the same value |
| Angles.WrapIdempotent | src/cryojax/rotations/_utils.py:60 | wrapping a wrapped angle changes nothing |
| Angles.RadToDeg | src/cryojax/rotations/_utils.py:61 | the degree value times pi is the radian value times 180 |
| Angles.PrincipalInDegrees | src/cryojax/rotations/_utils.py:60-61 | a wrapped angle is in [-180, 180) degrees |
| Rotations.AxisIndex | src/cryojax/rotations/_utils.py:23-24 | x, y, z map to array axes 0, 1, 2, and the axis maps back to its letter |
| Rotations.AxisLetterRoundTrip | src/cryojax/rotations/_utils.py:23-24 | axis to letter to axis is the identity on 0, 1, 2 |
| Rotations.ParseConvention | src/cryojax/rotations/_utils.py:13-24 | a convention is refused exactly when it is not three axis letters (malformed error) or repeats an adjacent axis (repeated-axis error); otherwise its axes spell it back |
| Rotations.AcceptedConventions | src/cryojax/rotations/_utils.py:13-22 | the accepted conventions are exactly the six symmetric and six asymmetric ones listed, split by whether the first and last axes coincide |
| Rotations.ConventionCounts | src/cryojax/rotations/_utils.py:6 | there are six of each kind, the kinds are disjoint, and the default "zyz" is symmetric |
| Rotations.ResolveAxes | src/cryojax/rotations/_utils.py:27-31 | symmetric iff first axis equals third; after reassigning k := 3 - i - j the axes are a permutation of 0, 1, 2 on both branches |
| Rotations.PermutationSign | src/cryojax/rotations/_utils.py:32-35 | the sign is -1 exactly for cyclic permutations and +1 for the others, and 0 if an index repeats |
| Rotations.RollLeft | src/cryojax/rotations/_utils.py:25 | rolling left by one moves every element one place left and the first to the end |
| Rotations.RollMovesScalarLast | src/cryojax/rotations/_utils.py:25 | the rolled quaternion is (x, y, z, w): w at index 3, x, y, z in front |
| Rotations.QuaternionTerms | src/cryojax/rotations/_utils.py:32-43 | for a sign of +-1 the terms are a signed rearrangement of the quaternion: a^2 + b^2 + c^2 + d^2 is its squared norm when symmetric and twice it when asymmetric, so hypot(a, b) and hypot(c, d) are a cosine/sine pair for half of theta; the terms equal the scalar-first terms of the quaternion rolled back |
| Rotations.SymmetricTermsNorm | src/cryojax/rotations/_utils.py:33 | for a sign of +-1 the symmetric terms (w, -x_i, -x_j, -sign x_k) have the squared norm of the quaternion |
| Rotations.AsymmetricTermsNorm | src/cryojax/rotations/_utils.py:36-41 | for a sign of +-1 the asymmetric sums and differences have twice the squared norm of the quaternion |
| Rotations.QuaternionTermsOfRolled | src/cryojax/rotations/_utils.py:25-41 | rolling (w, x, y, z) left and indexing as the code does yields exactly the scalar-first terms |
| Rotations.Decompose | src/cryojax/rotations/_utils.py:25-47 | the sign is +-1 and -1 iff the axes are cyclic; theta = 2 atan2(hypot(c, d), hypot(a, b)), half_sum = atan2(b, a), half_diff = atan2(d, c) over the scalar-first terms |
| Rotations.DegeneracyCase | src/cryojax/rotations/_utils.py:44-45 | the case is 1 iff the middle angle is within eps of 0, 2 iff not that but within eps of pi, 0 otherwise |
| Rotations.PolesAreApart | src/cryojax/rotations/_utils.py:44-45 | the two pole tests never hold together, so case 2 is just "within eps of pi" |
| Rotations.AssembleAngles | src/cryojax/rotations/_utils.py:42-59 | in case 0 first = halfSum - halfDiff and third = halfSum + halfDiff, times sign when asymmetric; at the poles first = 2 halfSum or -2 halfDiff and third = 0; the middle angle is shifted by -pi/2 only when asymmetric |
| Rotations.Unwrapped | src/cryojax/rotations/_utils.py:42-59 | before the wrap, per case of the decomposed middle angle: half-angle difference and sum in general (third signed when asymmetric), 2 half_sum or -2 half_diff with third 0 at the poles, middle angle shifted by -pi/2 only when asymmetric |
| Rotations.EulerRadians | src/cryojax/rotations/_utils.py:13-60 | fails with the matching error exactly for refused conventions; otherwise all three angles are in [-pi, pi) and each is a whole number of turns from the assembled angle |
| Rotations.ConvertQuaternionToEulerAngles | src/cryojax/rotations/_utils.py:5-61 | fails with the matching error exactly for refused conventions; otherwise each angle is the wrapped radian angle of the decomposition converted to degrees, in [-180, 180) |
| Rotations.EulerRadiansCases | src/cryojax/rotations/_utils.py:42-60 | case by case, the wrapped angles are whole turns from the half-angle formulas; the sign is +-1 and -1 iff the axes are cyclic |
| Rotations.GimbalLockZeroesThirdAngle | src/cryojax/rotations/_utils.py:42-61 | at either pole the third angle is exactly 0 degrees |
| Pose.MapRows | src/cryojax/simulator/pose.py:173 | mapping over rows keeps the row count, and output row n is the map applied to input row n |
| Pose.MapRowsAppend | src/cryojax/simulator/pose.py:212 | mapping rows commutes with concatenating batches |
| Pose.RotateAndTranslateRpy | src/cryojax/simulator/pose.py:170-175 | every row becomes R(phi, theta, psi) p + (tx, ty, 0), row count kept |
| Pose.RotateAndTranslateWxyz | src/cryojax/simulator/pose.py:210-214 | packing [qw, qx, qy, qz, tx, ty, 0] gives rotate-then-translate: every row becomes Q p + (tx, ty, 0) |
| Pose.RotateRpy | src/cryojax/simulator/pose.py:244-247 | every row is rotated by R(phi, theta, psi) alone, row count kept |
| Pose.RotateWxyz | src/cryojax/simulator/pose.py:276-280 | every row is rotated by the xyzw constructor applied to (qw, qx, qy, qz) in that order |
| Pose.RotateRpyIsZeroTranslation | src/cryojax/simulator/pose.py:244-245 | rotate_rpy equals rotate_and_translate_rpy with zero offsets |
| Pose.IdentityQuaternionFixesPoints | src/cryojax/simulator/pose.py:210-212 | the identity quaternion has the identity matrix, and with zero offsets it leaves every point unchanged |
| Pose.PoseRigid | src/cryojax/simulator/pose.py:171 | a pose's translation is (offsetX, offsetY, 0) and its rotation is the one its parameters name |
| Pose.Transform | src/cryojax/simulator/pose.py:77-127 | in real space the density is returned unchanged with every row moved by the pose's rigid transform; in Fourier space it fails with not-implemented and returns nothing |
| Pose.TranslationIsInPlane | src/cryojax/simulator/pose.py:170-172 | a transformed point differs from the rotated point by the offsets in x and y and not at all in z |
| Pose.TransformIsRowLocal | src/cryojax/simulator/pose.py:173 | output row n depends only on input row n |
| Pose.TransformSplitsBatches | src/cryojax/simulator/pose.py:212 | transforming a concatenation is concatenating the transforms |
| Pose.DefaultQuaternionPoseIsNeutral | src/cryojax/simulator/pose.py:113-116 | the default quaternion pose (1, 0, 0, 0) with zero offsets returns density and coordinates unchanged |
| Pose.DefaultEulerPoseIsPureRotation | src/cryojax/simulator/pose.py:73-75 | the default Euler pose has zero offsets and angles, so it is rotate_rpy at (0, 0, 0) |
| Pose.QuaternionMatrixOrthonormal | src/cryojax/simulator/pose.py:210-211 | the rotation of a unit quaternion has orthonormal columns |
| Pose.RigidPreservesDistance | src/cryojax/simulator/pose.py:172 | rotate-then-translate with an orthonormal rotation keeps the distance between two points |
| Pose.QuaternionPoseIsRigid | src/cryojax/simulator/pose.py:122-125 | a unit-quaternion pose keeps every pairwise distance between rows |
| AtomDensity.NewAtomCloud | src/cryojax/simulator/density/_atom_density.py:29-35 | construction fails with not-implemented exactly when the cloud is not real-space, and otherwise keeps the four arrays |
| AtomDensity.DefaultCloudIsValid | src/cryojax/simulator/density/_atom_density.py:29 | with the real-space flag at its default, construction succeeds |
| AtomDensity.RotateTo | src/cryojax/simulator/density/_atom_density.py:37-39 | the new coordinates are the rotation of the old ones under the cloud's own flag; weights, variances, identity and flag are unchanged; validity is kept |
| AtomDensity.RotateToRevalidates | src/cryojax/simulator/density/_atom_density.py:31-39 | the rotated cloud passes the construction check again and is rebuilt from its fields |
| AtomDensity.RotateToKeepsAlignment | src/cryojax/simulator/density/_atom_density.py:24-39 | a row-preserving rotation keeps the atom count and the alignment of coordinates with weights and identity |
| AtomDensity.RotateToPose | src/cryojax/simulator/density/_atom_density.py:37-39 | rotating to a pose moves every atom by the pose's rigid transform, as the pose's real-space transform does, and keeps alignment |
| AtomDensity.FromFile | src/cryojax/simulator/density/_atom_density.py:41-53 | always fails with not-implemented |
| AtomDensity.FromStack | src/cryojax/simulator/density/_atom_density.py:56-64 | always fails with not-implemented |
| AtomDensity.GetItem | src/cryojax/simulator/density/_atom_density.py:66-68 | always fails with not-implemented |

## Left out

- The floating-point definitions of `arctan2`, `hypot`, `SO3.from_rpy_radians` and `SO3.from_quaternion_xyzw` belong to jax and jaxlie, which are not part of this model. They are parameters, so no Euler-quaternion round trip is claimed.
- Rounding: all arithmetic is exact real arithmetic.
- `shift_phase` (pose.py:284-314) is left out. It works with complex exponentials and is only reached from commented-out code.
- Pose.RotateWxyz: no claim that it agrees with `rotate_and_translate_wxyz`. It hands a (w, x, y, z)-ordered array to a constructor that reads (x, y, z, w).
- Pose.RotateAndTranslateWxyz: uses the unit-quaternion rotation matrix. jaxlie's treatment of non-unit quaternions is not modelled.
- `AtomCloud.rotate_to` calls `pose.rotate`, which the pose module does not define. The pose is therefore a rotation function of the coordinates and the real-space flag. `AtomDensity.PoseCoordinateMap` builds such a function from a pose's full rigid transform; including the in-plane offset, and not only the rotation, is a choice of the model.
- The abstract base `Pose.transform` (pose.py:50-55) is not modelled separately. The closed union of the two variants replaces the abstract class.
- Array shapes are modelled by types. Coordinates are sequences of 3-vectors, and the quaternion is a sequence the conversion requires to have length 4. The shape of `variances` is not stated, so alignment covers only weights and identity.
- `jax.jit`, `jax.vmap` batching mechanics, `eqx.tree_at`, and the dataclass, PyTree and serialisation plumbing are left out. Only their value semantics are modelled: a row-wise map and a functional update.
- `from_file` loading is file I/O. Only its failure is modelled.
- tests/test_detector.py (stochastic detector noise, FFTs, statistical tolerances) and the package `__init__` re-exports are not part of this model.

=== FILE: angles.dfy ===
/** Real-valued angle arithmetic: the constant pi, Python's floored float
    modulus by 2*pi, the wrap into the principal interval and the conversion
    from radians to degrees. */
module Angles {

  /** `jnp.pi`: the shortest decimal that rounds to float64 pi. */
  const Pi: real := 3.141592653589793

  const TwoPi: real := 2.0 * Pi

  function Abs(x: real): (r: real)
    ensures r >= 0.0 && (r == x || r == -x)
  {
    if x < 0.0 then -x else x
  }

  /** `x` is a whole number. */
  predicate IsWhole(x: real) {
    x == x.Floor as real
  }

  /** `a` and `b` differ by a whole number of turns. */
  predicate Coterminal(a: real, b: real) {
    IsWhole((a - b) / TwoPi)
  }

  /** Python's float `x % (2*pi)`: the remainder takes the sign of the divisor. */
  function ModTwoPi(x: real): (r: real)
    ensures 0.0 <= r < TwoPi
    ensures Coterminal(r, x)
  {
    var turns := (x / TwoPi).Floor;
    var r := x - TwoPi * turns as real;
    assert r - x == ((-turns) as real) * TwoPi;
    assert (r - x) / TwoPi == (-turns) as real;
    assert ((-turns) as real).Floor == -turns;
    r
  }

  /** The final wrap `(a + pi) % (2*pi) - pi` of the Euler-angle conversion. */
  function Wrap(a: real): (r: real)
    ensures -Pi <= r < Pi
    ensures Coterminal(r, a)
  {
    var m := ModTwoPi(a + Pi);
    assert (m - Pi - a) / TwoPi == (m - (a + Pi)) / TwoPi;
    m - Pi
  }

  /** Coterminality is an equivalence: it is symmetric and transitive. */
  lemma CoterminalSymmetric(a: real, b: real)
    requires Coterminal(a, b)
    ensures Coterminal(b, a)
  {
    var n := (a - b) / TwoPi;
    assert (b - a) / TwoPi == -n;
    assert (-n).Floor == -(n.Floor);
  }

  lemma CoterminalTransitive(a: real, b: real, c: real)
    requires Coterminal(a, b) && Coterminal(b, c)
    ensures Coterminal(a, c)
  {
    var n := (a - b) / TwoPi;
    var p := (b - c) / TwoPi;
    assert (a - c) / TwoPi == n + p;
    assert (n + p).Floor == n.Floor + p.Floor;
  }

  /** Two angles in the principal interval that are coterminal are equal. */
  lemma PrincipalCoterminalUnique(a: real, b: real)
    requires -Pi <= a < Pi && -Pi <= b < Pi
    requires Coterminal(a, b)
    ensures a == b
  {
  }

  /** The wrap leaves an angle of the principal interval unchanged. */
  lemma WrapFixesPrincipal(a: real)
    requires -Pi <= a < Pi
    ensures Wrap(a) == a
  {
  }

  /** The wrap depends only on the angle modulo a full turn. */
  lemma {:induction false} WrapRespectsTurns(a: real, b: real)
    requires Coterminal(a, b)
    ensures Wrap(a) == Wrap(b)
  {
    CoterminalTransitive(Wrap(a), a, b);
    CoterminalSymmetric(Wrap(b), b);
    CoterminalTransitive(Wrap(a), b, Wrap(b));
    PrincipalCoterminalUnique(Wrap(a), Wrap(b));
  }

  /** Wrapping twice is wrapping once. */
  lemma WrapIdempotent(a: real)
    ensures Wrap(Wrap(a)) == Wrap(a)
  {
  }

  /** `jnp.rad2deg`. */
  function RadToDeg(a: real): (d: real)
    ensures d * Pi == a * 180.0
  {
    a * (180.0 / Pi)
  }

  /** An angle of the principal interval lies in [-180, 180) degrees. */
  lemma PrincipalInDegrees(a: real)
    requires -Pi <= a < Pi
    ensures -180.0 <= RadToDeg(a) < 180.0
  {
  }
}

=== FILE: atom_density.dfy ===
/** An atomic point cloud as an immutable value: per-atom weights,
    coordinates, variances and species, plus the flag saying whether the
    density lives in real space. */
module AtomDensity {
  import opened Failures
  import opened Pose

  datatype AtomCloud = AtomCloud(
    weights: seq<real>,
    coordinates: seq<Vec3>,
    variances: seq<real>,
    identity: seq<int>,
    isReal: bool := true)

  /** The construction check: only real-space clouds are supported. */
  predicate Valid(cloud: AtomCloud) {
    cloud.isReal
  }

  /** Construction with the check `__check_init__` runs: a Fourier-space
      cloud is refused. */
  function NewAtomCloud(weights: seq<real>, coordinates: seq<Vec3>, variances: seq<real>, identity: seq<int>,
                        isReal: bool := true): (r: Result<AtomCloud>)
    ensures r.Success? <==> isReal
    ensures !isReal ==> r == Failure(NotImplemented)
    ensures r.Success? ==> Valid(r.value)
    ensures r.Success? ==> r.value.weights == weights && r.value.coordinates == coordinates &&
                           r.value.variances == variances && r.value.identity == identity
  {
    if !isReal then
      Failure(NotImplemented)
    else
      Success(AtomCloud(weights, coordinates, variances, identity, isReal))
  }

  /** A cloud built with every argument but the four arrays left at its
      default passes the check. */
  lemma DefaultCloudIsValid(weights: seq<real>, coordinates: seq<Vec3>, variances: seq<real>, identity: seq<int>)
    ensures NewAtomCloud(weights, coordinates, variances, identity).Success?
    ensures NewAtomCloud(weights, coordinates, variances, identity).value.isReal
  {
  }

  /** One row of coordinates and one species per weight. */
  predicate Aligned(cloud: AtomCloud) {
    |cloud.coordinates| == |cloud.weights| && |cloud.identity| == |cloud.weights|
  }

  /** `rotate_to`: the pose's rotation is applied to the coordinates, with the
      cloud's own real-space flag, and only the coordinates are replaced. The
      pose is given by that rotation, a function of the coordinates and the flag. */
  function RotateTo(cloud: AtomCloud, rotate: (seq<Vec3>, bool) -> seq<Vec3>): (r: AtomCloud)
    ensures r.coordinates == rotate(cloud.coordinates, cloud.isReal)
    ensures r.weights == cloud.weights && r.variances == cloud.variances
    ensures r.identity == cloud.identity && r.isReal == cloud.isReal
    ensures Valid(cloud) ==> Valid(r)
  {
    cloud.(coordinates := rotate(cloud.coordinates, cloud.isReal))
  }

  /** The rotated cloud passes the construction check again, and rebuilding it
      from its fields gives it back. */
  lemma RotateToRevalidates(cloud: AtomCloud, rotate: (seq<Vec3>, bool) -> seq<Vec3>)
    requires Valid(cloud)
    ensures var r := RotateTo(cloud, rotate);
            NewAtomCloud(r.weights, r.coordinates, r.variances, r.identity, r.isReal) == Success(r)
  {
  }

  /** A rotation that returns as many rows as it is given. */
  ghost predicate RowPreserving(rotate: (seq<Vec3>, bool) -> seq<Vec3>) {
    forall coords: seq<Vec3>, isReal: bool :: |rotate(coords, isReal)| == |coords|
  }

  /** A row-preserving rotation keeps the atom count and the coordinates
      aligned with the weights and the species. */
  lemma RotateToKeepsAlignment(cloud: AtomCloud, rotate: (seq<Vec3>, bool) -> seq<Vec3>)
    requires Aligned(cloud) && RowPreserving(rotate)
    ensures Aligned(RotateTo(cloud, rotate))
    ensures |RotateTo(cloud, rotate).coordinates| == |cloud.coordinates|
  {
  }

  /** The coordinate map of a pose's real-space transform. It applies the
      pose's full rigid transform, in-plane offset included, rather than its
      rotation alone. */
  function PoseCoordinateMap(pose: Pose, so3: So3): (seq<Vec3>, bool) -> seq<Vec3> {
    (coords: seq<Vec3>, isReal: bool) => MapRows(p => ApplyRigid(PoseRigid(pose, so3), p), coords)
  }

  /** Rotating a valid, aligned cloud to a pose moves every atom by the pose's
      rigid transform, exactly as the pose's real-space transform does, and
      keeps the cloud aligned. */
  lemma RotateToPose(cloud: AtomCloud, pose: Pose, so3: So3)
    requires Valid(cloud) && Aligned(cloud)
    ensures var r := RotateTo(cloud, PoseCoordinateMap(pose, so3));
            && Aligned(r)
            && r.coordinates == Transform(pose, so3, cloud.weights, cloud.coordinates, cloud.isReal).value.1
            && forall n :: 0 <= n < |cloud.coordinates| ==>
                 r.coordinates[n] == ApplyRigid(PoseRigid(pose, so3), cloud.coordinates[n])
  {
  }

  /** `from_file`: loading is not implemented. */
  function FromFile(filename: string, config: map<string, string>): (r: Result<AtomCloud>)
    ensures r == Failure(NotImplemented)
  {
    Failure(NotImplemented)
  }

  /** `from_stack`: stacking clouds is not implemented. */
  function FromStack(stack: seq<AtomCloud>): (r: Result<AtomCloud>)
    ensures r == Failure(NotImplemented)
  {
    Failure(NotImplemented)
  }

  /** `__getitem__`: indexing a stack is not implemented. */
  function GetItem(cloud: AtomCloud, key: int): (r: Result<AtomCloud>)
    ensures r == Failure(NotImplemented)
  {
    Failure(NotImplemented)
  }
}

=== FILE: failures.dfy ===
/** Errors raised by the pose and specimen layer, and the result type that
    carries them instead of a Python exception. */
module Failures {

  /** The exceptions the modelled code raises. */
  datatype Error =
      /** `ValueError`: the convention is not three letters from x, y, z. */
    | MalformedConvention(convention: string)
      /** `ValueError`: the convention repeats an axis in adjacent positions. */
    | RepeatedAxis(convention: string)
      /** `NotImplementedError`: an operation the code declares but does not support. */
    | NotImplemented

  /** Either a value or the exception raised in its place. */
  datatype Result<+T> = Success(value: T) | Failure(error: Error) {

    predicate IsFailure() {
      Failure?
    }

    function PropagateFailure<U>(): Result<U>
      requires Failure?
    {
      Failure(error)
    }

    function Extract(): T
      requires Success?
    {
      value
    }
  }
}

=== FILE: pose.dfy ===
/** Poses: a closed union of an Euler-angle pose and a unit-quaternion pose,
    each an in-plane offset plus a rotation, and the row-wise rigid
    transforms of coordinate arrays they are built on. */
module Pose {
  import opened Failures

  // ---------------------------------------------------------------------------
  // Vectors, matrices and rigid transforms
  // ---------------------------------------------------------------------------

  datatype Vec3 = Vec3(x: real, y: real, z: real)

  /** A 3 x 3 matrix, row by row. */
  datatype Mat3 = Mat3(row0: Vec3, row1: Vec3, row2: Vec3)

  function Add(u: Vec3, v: Vec3): Vec3 {
    Vec3(u.x + v.x, u.y + v.y, u.z + v.z)
  }

  function Dot(u: Vec3, v: Vec3): real {
    u.x * v.x + u.y * v.y + u.z * v.z
  }

  function MatVec(m: Mat3, p: Vec3): Vec3 {
    Vec3(Dot(m.row0, p), Dot(m.row1, p), Dot(m.row2, p))
  }

  const Identity: Mat3 := Mat3(Vec3(1.0, 0.0, 0.0), Vec3(0.0, 1.0, 0.0), Vec3(0.0, 0.0, 1.0))

  /** An element of SE(3): rotate, then translate. */
  datatype Rigid = Rigid(rotation: Mat3, translation: Vec3)

  function ApplyRigid(t: Rigid, p: Vec3): Vec3 {
    Add(MatVec(t.rotation, p), t.translation)
  }

  /** The constructors of SO(3) whose floating-point definitions are not
      modelled: rotation from roll, pitch and yaw in radians, and rotation from
      a quaternion given in (x, y, z, w) order. */
  datatype So3 = So3(fromRpyRadians: (real, real, real) -> Mat3,
                     fromQuaternionXyzw: (real, real, real, real) -> Mat3)

  /** The rotation matrix of a unit quaternion (w, x, y, z). */
  function QuaternionMatrix(w: real, x: real, y: real, z: real): Mat3 {
    Mat3(Vec3(1.0 - 2.0 * (y * y + z * z), 2.0 * (x * y - w * z), 2.0 * (x * z + w * y)),
         Vec3(2.0 * (x * y + w * z), 1.0 - 2.0 * (x * x + z * z), 2.0 * (y * z - w * x)),
         Vec3(2.0 * (x * z - w * y), 2.0 * (y * z + w * x), 1.0 - 2.0 * (x * x + y * y)))
  }

  /** `SE3(wxyz_xyz=v)`: a quaternion (w, x, y, z) followed by a translation. */
  function Se3FromWxyzXyz(v: seq<real>): Rigid
    requires |v| == 7
  {
    Rigid(QuaternionMatrix(v[0], v[1], v[2], v[3]), Vec3(v[4], v[5], v[6]))
  }

  /** The translation `[tx, ty, 0.0]`. */
  function InPlaneTranslation(tx: real, ty: real): Vec3 {
    Vec3(tx, ty, 0.0)
  }

  /** `jax.vmap(f)(coords)`: `f` applied to every row on its own. */
  function MapRows(f: Vec3 -> Vec3, coords: seq<Vec3>): (r: seq<Vec3>)
    ensures |r| == |coords|
    ensures forall n :: 0 <= n < |coords| ==> r[n] == f(coords[n])
  {
    if coords == [] then [] else [f(coords[0])] + MapRows(f, coords[1..])
  }

  /** Mapping rows commutes with splitting the array into two batches. */
  lemma MapRowsAppend(f: Vec3 -> Vec3, a: seq<Vec3>, b: seq<Vec3>)
    ensures MapRows(f, a + b) == MapRows(f, a) + MapRows(f, b)
  {
  }

  // ---------------------------------------------------------------------------
  // The functional API
  // ---------------------------------------------------------------------------

  /** `rotate_and_translate_rpy`. */
  function RotateAndTranslateRpy(so3: So3, coords: seq<Vec3>, tx: real, ty: real, phi: real, theta: real, psi: real)
    : (r: seq<Vec3>)
    ensures |r| == |coords|
    ensures forall n :: 0 <= n < |coords| ==>
              r[n] == Add(MatVec(so3.fromRpyRadians(phi, theta, psi), coords[n]), Vec3(tx, ty, 0.0))
  {
    var rotation := so3.fromRpyRadians(phi, theta, psi);
    var transformation := Rigid(rotation, InPlaneTranslation(tx, ty));
    MapRows(p => ApplyRigid(transformation, p), coords)
  }

  /** `rotate_and_translate_wxyz`: the quaternion and the translation are
      packed into one seven-element array, then applied as rotate-then-translate. */
  function RotateAndTranslateWxyz(coords: seq<Vec3>, tx: real, ty: real, qw: real, qx: real, qy: real, qz: real)
    : (r: seq<Vec3>)
    ensures |r| == |coords|
    ensures forall n :: 0 <= n < |coords| ==>
              r[n] == Add(MatVec(QuaternionMatrix(qw, qx, qy, qz), coords[n]), Vec3(tx, ty, 0.0))
  {
    var transformation := Se3FromWxyzXyz([qw, qx, qy, qz, tx, ty, 0.0]);
    MapRows(p => ApplyRigid(transformation, p), coords)
  }

  /** `rotate_rpy`. */
  function RotateRpy(so3: So3, coords: seq<Vec3>, phi: real, theta: real, psi: real): (r: seq<Vec3>)
    ensures |r| == |coords|
    ensures forall n :: 0 <= n < |coords| ==> r[n] == MatVec(so3.fromRpyRadians(phi, theta, psi), coords[n])
  {
    var rotation := so3.fromRpyRadians(phi, theta, psi);
    MapRows(p => MatVec(rotation, p), coords)
  }

  /** `rotate_wxyz`: the array `[qw, qx, qy, qz]` is handed, in that order, to
      the constructor that reads (x, y, z, w). */
  function RotateWxyz(so3: So3, coords: seq<Vec3>, qw: real, qx: real, qy: real, qz: real): (r: seq<Vec3>)
    ensures |r| == |coords|
    ensures forall n :: 0 <= n < |coords| ==> r[n] == MatVec(so3.fromQuaternionXyzw(qw, qx, qy, qz), coords[n])
  {
    var rotation := so3.fromQuaternionXyzw(qw, qx, qy, qz);
    MapRows(p => MatVec(rotation, p), coords)
  }

  /** A zero translation adds nothing: `rotate_rpy` is `rotate_and_translate_rpy`
      with both offsets zero. */
  lemma RotateRpyIsZeroTranslation(so3: So3, coords: seq<Vec3>, phi: real, theta: real, psi: real)
    ensures RotateRpy(so3, coords, phi, theta, psi) == RotateAndTranslateRpy(so3, coords, 0.0, 0.0, phi, theta, psi)
  {
  }

  /** The identity quaternion with zero offsets leaves every point in place. */
  lemma IdentityQuaternionFixesPoints(coords: seq<Vec3>)
    ensures QuaternionMatrix(1.0, 0.0, 0.0, 0.0) == Identity
    ensures RotateAndTranslateWxyz(coords, 0.0, 0.0, 1.0, 0.0, 0.0, 0.0) == coords
  {
  }

  // ---------------------------------------------------------------------------
  // Rigidity of the quaternion rotation
  // ---------------------------------------------------------------------------

  function Sub(u: Vec3, v: Vec3): Vec3 {
    Vec3(u.x - v.x, u.y - v.y, u.z - v.z)
  }

  function Transpose(m: Mat3): Mat3 {
    Mat3(Vec3(m.row0.x, m.row1.x, m.row2.x),
         Vec3(m.row0.y, m.row1.y, m.row2.y),
         Vec3(m.row0.z, m.row1.z, m.row2.z))
  }

  /** The columns of `m` are orthonormal. */
  predicate Orthonormal(m: Mat3) {
    var t := Transpose(m);
    && Dot(t.row0, t.row0) == 1.0 && Dot(t.row1, t.row1) == 1.0 && Dot(t.row2, t.row2) == 1.0
    && Dot(t.row0, t.row1) == 0.0 && Dot(t.row0, t.row2) == 0.0 && Dot(t.row1, t.row2) == 0.0
  }

  predicate IsUnitQuaternion(w: real, x: real, y: real, z: real) {
    w * w + x * x + y * y + z * z == 1.0
  }

  // One identity per pair of columns of the quaternion matrix, each kept
  // small so that the solver sees only its own polynomial.

  lemma QuaternionColumns00(w: real, x: real, y: real, z: real)
    requires IsUnitQuaternion(w, x, y, z)
    ensures var t := Transpose(QuaternionMatrix(w, x, y, z)); Dot(t.row0, t.row0) == 1.0
  {
  }

  lemma QuaternionColumns11(w: real, x: real, y: real, z: real)
    requires IsUnitQuaternion(w, x, y, z)
    ensures var t := Transpose(QuaternionMatrix(w, x, y, z)); Dot(t.row1, t.row1) == 1.0
  {
  }

  lemma QuaternionColumns22(w: real, x: real, y: real, z: real)
    requires IsUnitQuaternion(w, x, y, z)
    ensures var t := Transpose(QuaternionMatrix(w, x, y, z)); Dot(t.row2, t.row2) == 1.0
  {
  }

  lemma QuaternionColumns01(w: real, x: real, y: real, z: real)
    requires IsUnitQuaternion(w, x, y, z)
    ensures var t := Transpose(QuaternionMatrix(w, x, y, z)); Dot(t.row0, t.row1) == 0.0
  {
  }

  lemma ZeroFactor(a: real, b: real)
    requires b == 0.0
    ensures a * b == 0.0
  {
  }

  /** The one column identity the solver needs spelled out: expanded, the
      dot product of columns 0 and 2 is 4xz(1 - |q|^2). */
  lemma Columns02Expansion(w: real, x: real, y: real, z: real)
    ensures var t := Transpose(QuaternionMatrix(w, x, y, z));
            Dot(t.row0, t.row2) == 4.0 * (x * z) * (1.0 - (w * w + x * x + y * y + z * z))
  {
    var p1 := (1.0 - 2.0 * (y * y + z * z)) * (2.0 * (x * z + w * y));
    var p2 := (2.0 * (x * y + w * z)) * (2.0 * (y * z - w * x));
    var p3 := (2.0 * (x * z - w * y)) * (1.0 - 2.0 * (x * x + y * y));
    assert p1 == 2.0 * x * z + 2.0 * w * y - 4.0 * x * y * y * z - 4.0 * w * y * y * y
                 - 4.0 * x * z * z * z - 4.0 * w * y * z * z;
    assert p2 == 4.0 * x * y * y * z - 4.0 * w * x * x * y + 4.0 * w * y * z * z - 4.0 * w * w * x * z;
    assert p3 == 2.0 * x * z - 2.0 * w * y - 4.0 * x * x * x * z + 4.0 * w * x * x * y
                 - 4.0 * x * y * y * z + 4.0 * w * y * y * y;
  }

  lemma QuaternionColumns02(w: real, x: real, y: real, z: real)
    requires IsUnitQuaternion(w, x, y, z)
    ensures var t := Transpose(QuaternionMatrix(w, x, y, z)); Dot(t.row0, t.row2) == 0.0
  {
    Columns02Expansion(w, x, y, z);
    ZeroFactor(4.0 * (x * z), 1.0 - (w * w + x * x + y * y + z * z));
  }

  lemma QuaternionColumns12(w: real, x: real, y: real, z: real)
    requires IsUnitQuaternion(w, x, y, z)
    ensures var t := Transpose(QuaternionMatrix(w, x, y, z)); Dot(t.row1, t.row2) == 0.0
  {
  }

  /** The matrix of a unit quaternion has orthonormal columns. */
  lemma QuaternionMatrixOrthonormal(w: real, x: real, y: real, z: real)
    requires IsUnitQuaternion(w, x, y, z)
    ensures Orthonormal(QuaternionMatrix(w, x, y, z))
  {
    QuaternionColumns00(w, x, y, z);
    QuaternionColumns11(w, x, y, z);
    QuaternionColumns22(w, x, y, z);
    QuaternionColumns01(w, x, y, z);
    QuaternionColumns02(w, x, y, z);
    QuaternionColumns12(w, x, y, z);
  }

  lemma ExpandSquare(a: Vec3, p: Vec3)
    ensures Dot(a, p) * Dot(a, p) ==
              a.x * a.x * (p.x * p.x) + a.y * a.y * (p.y * p.y) + a.z * a.z * (p.z * p.z)
              + 2.0 * (a.x * a.y) * (p.x * p.y) + 2.0 * (a.x * a.z) * (p.x * p.z) + 2.0 * (a.y * a.z) * (p.y * p.z)
  {
  }

  /** A matrix with orthonormal columns preserves lengths. */
  lemma OrthonormalPreservesNorm(m: Mat3, p: Vec3)
    requires Orthonormal(m)
    ensures Dot(MatVec(m, p), MatVec(m, p)) == Dot(p, p)
  {
    var a, b, c := m.row0, m.row1, m.row2;
    ExpandSquare(a, p);
    ExpandSquare(b, p);
    ExpandSquare(c, p);
    var xx := a.x * a.x + b.x * b.x + c.x * c.x;
    var yy := a.y * a.y + b.y * b.y + c.y * c.y;
    var zz := a.z * a.z + b.z * b.z + c.z * c.z;
    var xy := a.x * a.y + b.x * b.y + c.x * c.y;
    var xz := a.x * a.z + b.x * b.z + c.x * c.z;
    var yz := a.y * a.z + b.y * b.z + c.y * c.z;
    assert xx == 1.0 && yy == 1.0 && zz == 1.0 && xy == 0.0 && xz == 0.0 && yz == 0.0;
    calc {
      Dot(MatVec(m, p), MatVec(m, p));
      Dot(a, p) * Dot(a, p) + Dot(b, p) * Dot(b, p) + Dot(c, p) * Dot(c, p);
      xx * (p.x * p.x) + yy * (p.y * p.y) + zz * (p.z * p.z)
        + 2.0 * xy * (p.x * p.y) + 2.0 * xz * (p.x * p.z) + 2.0 * yz * (p.y * p.z);
      Dot(p, p);
    }
  }

  /** A rotation followed by a translation preserves the distance between any
      two points when the rotation has orthonormal columns. */
  lemma RigidPreservesDistance(t: Rigid, p: Vec3, q: Vec3)
    requires Orthonormal(t.rotation)
    ensures var d := Sub(ApplyRigid(t, p), ApplyRigid(t, q)); Dot(d, d) == Dot(Sub(p, q), Sub(p, q))
  {
    // The offsets cancel, leaving the rotation of the difference.
    assert Sub(ApplyRigid(t, p), ApplyRigid(t, q)) == MatVec(t.rotation, Sub(p, q));
    OrthonormalPreservesNorm(t.rotation, Sub(p, q));
  }

  // ---------------------------------------------------------------------------
  // Pose variants
  // ---------------------------------------------------------------------------

  /** The two pose parameterisations, with their default field values. Euler
      angles are roll, pitch and yaw in radians. */
  datatype Pose =
    | EulerPose(offsetX: real := 0.0, offsetY: real := 0.0,
                viewPhi: real := 0.0, viewTheta: real := 0.0, viewPsi: real := 0.0)
    | QuaternionPose(offsetX: real := 0.0, offsetY: real := 0.0,
                     viewQw: real := 1.0, viewQx: real := 0.0, viewQy: real := 0.0, viewQz: real := 0.0)

  /** The rigid transform a pose stands for: its rotation, then the in-plane
      offset. */
  function PoseRigid(pose: Pose, so3: So3): (t: Rigid)
    ensures t.translation == Vec3(pose.offsetX, pose.offsetY, 0.0)
    ensures pose.EulerPose? ==> t.rotation == so3.fromRpyRadians(pose.viewPhi, pose.viewTheta, pose.viewPsi)
    ensures pose.QuaternionPose? ==> t.rotation == QuaternionMatrix(pose.viewQw, pose.viewQx, pose.viewQy, pose.viewQz)
  {
    match pose
    case EulerPose(tx, ty, phi, theta, psi) => Rigid(so3.fromRpyRadians(phi, theta, psi), InPlaneTranslation(tx, ty))
    case QuaternionPose(tx, ty, qw, qx, qy, qz) => Se3FromWxyzXyz([qw, qx, qy, qz, tx, ty, 0.0])
  }

  /** `Pose.transform`: in real space the density is handed back unchanged
      beside the transformed coordinates; in Fourier space the call fails. */
  function Transform<D>(pose: Pose, so3: So3, density: D, coordinates: seq<Vec3>, realSpace: bool := true)
    : (r: Result<(D, seq<Vec3>)>)
    ensures r.Success? <==> realSpace
    ensures !realSpace ==> r == Failure(NotImplemented)
    ensures realSpace ==> r.value.0 == density && |r.value.1| == |coordinates|
    ensures realSpace ==> forall n :: 0 <= n < |coordinates| ==>
              r.value.1[n] == ApplyRigid(PoseRigid(pose, so3), coordinates[n])
  {
    if realSpace then
      match pose
      case EulerPose(tx, ty, phi, theta, psi) =>
        Success((density, RotateAndTranslateRpy(so3, coordinates, tx, ty, phi, theta, psi)))
      case QuaternionPose(tx, ty, qw, qx, qy, qz) =>
        Success((density, RotateAndTranslateWxyz(coordinates, tx, ty, qw, qx, qy, qz)))
    else
      Failure(NotImplemented)
  }

  /** The translation of either pose is in the plane: a transformed point's
      height is the height of the rotated point, and only x and y move by the
      offsets. */
  lemma TranslationIsInPlane<D>(pose: Pose, so3: So3, density: D, coordinates: seq<Vec3>, n: int)
    requires 0 <= n < |coordinates|
    ensures var moved := Transform(pose, so3, density, coordinates).value.1[n];
            var turned := MatVec(PoseRigid(pose, so3).rotation, coordinates[n]);
            moved == Vec3(turned.x + pose.offsetX, turned.y + pose.offsetY, turned.z)
  {
  }

  /** Output row n depends on input row n alone. */
  lemma TransformIsRowLocal<D>(pose: Pose, so3: So3, density: D, a: seq<Vec3>, b: seq<Vec3>, n: int)
    requires 0 <= n < |a| && 0 <= n < |b| && a[n] == b[n]
    ensures Transform(pose, so3, density, a).value.1[n] == Transform(pose, so3, density, b).value.1[n]
  {
  }

  /** Transforming two batches separately is transforming their concatenation. */
  lemma TransformSplitsBatches<D>(pose: Pose, so3: So3, density: D, a: seq<Vec3>, b: seq<Vec3>)
    ensures Transform(pose, so3, density, a + b).value.1 ==
            Transform(pose, so3, density, a).value.1 + Transform(pose, so3, density, b).value.1
  {
  }

  /** The default quaternion pose is the identity transform. */
  lemma DefaultQuaternionPoseIsNeutral<D>(so3: So3, density: D, coordinates: seq<Vec3>)
    ensures Transform(QuaternionPose(), so3, density, coordinates) == Success((density, coordinates))
  {
    IdentityQuaternionFixesPoints(coordinates);
  }

  /** The default Euler pose has zero offsets and zero angles, so it rotates by
      the roll-pitch-yaw rotation of (0, 0, 0) and translates by nothing. */
  lemma DefaultEulerPoseIsPureRotation<D>(so3: So3, density: D, coordinates: seq<Vec3>)
    ensures EulerPose() == EulerPose(0.0, 0.0, 0.0, 0.0, 0.0)
    ensures Transform(EulerPose(), so3, density, coordinates) == Success((density, RotateRpy(so3, coordinates, 0.0, 0.0, 0.0)))
  {
    RotateRpyIsZeroTranslation(so3, coordinates, 0.0, 0.0, 0.0);
  }

  /** A quaternion pose with a unit quaternion moves the coordinates rigidly:
      every pairwise distance is kept. */
  lemma QuaternionPoseIsRigid<D>(pose: Pose, so3: So3, density: D, coordinates: seq<Vec3>, n: int, m: int)
    requires pose.QuaternionPose? && IsUnitQuaternion(pose.viewQw, pose.viewQx, pose.viewQy, pose.viewQz)
    requires 0 <= n < |coordinates| && 0 <= m < |coordinates|
    ensures var moved := Transform(pose, so3, density, coordinates).value.1;
            Dot(Sub(moved[n], moved[m]), Sub(moved[n], moved[m])) ==
            Dot(Sub(coordinates[n], coordinates[m]), Sub(coordinates[n], coordinates[m]))
  {
    QuaternionMatrixOrthonormal(pose.viewQw, pose.viewQx, pose.viewQy, pose.viewQz);
    RigidPreservesDistance(PoseRigid(pose, so3), coordinates[n], coordinates[m]);
  }
}

=== FILE: rotations.dfy ===
/** Conversion of a unit quaternion to three Euler angles about extrinsic
    axes, for a caller-chosen three-letter axis convention such as "zyz". */
module Rotations {
  import opened Failures
  import opened Angles

  /** The convention used when the caller names none. */
  const DefaultConvention: string := "zyz"

  /** Tolerance of the two gimbal-lock tests on the middle angle. */
  const Eps: real := 0.0000001

  /** `jnp.arctan2` and `jnp.hypot`. Their floating-point definitions are not
      modelled: the conversion takes them as given functions. */
  datatype Trig = Trig(atan2: (real, real) -> real, hypot: (real, real) -> real)

  /** Three angles in the order the convention names the axes. */
  datatype EulerTriple = EulerTriple(first: real, second: real, third: real)

  // ---------------------------------------------------------------------------
  // Axis conventions
  // ---------------------------------------------------------------------------

  predicate IsAxisLetter(c: char) {
    c == 'x' || c == 'y' || c == 'z'
  }

  /** Three characters, each an axis letter. */
  predicate WellFormed(convention: string) {
    |convention| == 3 && forall n :: 0 <= n < 3 ==> IsAxisLetter(convention[n])
  }

  /** Well formed, and no axis repeated in adjacent positions. */
  predicate Accepted(convention: string) {
    WellFormed(convention) && convention[0] != convention[1] && convention[1] != convention[2]
  }

  /** Proper Euler conventions: the first and last axes coincide. */
  const SymmetricConventions: set<string> := {"xyx", "xzx", "yxy", "yzy", "zxz", "zyz"}

  /** Tait-Bryan conventions: three distinct axes. */
  const AsymmetricConventions: set<string> := {"xyz", "xzy", "yxz", "yzx", "zxy", "zyx"}

  /** Array axis of an axis letter: x is 0, y is 1, z is 2. */
  function AxisIndex(c: char): (n: int)
    requires IsAxisLetter(c)
    ensures 0 <= n < 3 && AxisLetter(n) == c
  {
    if c == 'x' then 0 else if c == 'y' then 1 else 2
  }

  /** Axis letter of an array axis. */
  function AxisLetter(n: int): char
    requires 0 <= n < 3
  {
    "xyz"[n]
  }

  lemma AxisLetterRoundTrip(n: int)
    requires 0 <= n < 3
    ensures IsAxisLetter(AxisLetter(n)) && AxisIndex(AxisLetter(n)) == n
  {
  }

  /** Array axes (i, j, k) named by a convention. */
  datatype Axes = Axes(i: int, j: int, k: int)

  predicate InRange(a: Axes) {
    0 <= a.i < 3 && 0 <= a.j < 3 && 0 <= a.k < 3
  }

  /** (i, j, k) is a permutation of (0, 1, 2). */
  predicate IsPermutation(a: Axes) {
    InRange(a) && a.i != a.j && a.j != a.k && a.k != a.i
  }

  /** (i, j, k) is an even (cyclic) permutation of (0, 1, 2). */
  predicate IsCyclic(a: Axes) {
    a == Axes(0, 1, 2) || a == Axes(1, 2, 0) || a == Axes(2, 0, 1)
  }

  /** Validates a convention and maps its letters to array axes. */
  function ParseConvention(convention: string): (r: Result<Axes>)
    ensures r.Success? <==> Accepted(convention)
    ensures !WellFormed(convention) ==> r == Failure(MalformedConvention(convention))
    ensures WellFormed(convention) && !Accepted(convention) ==> r == Failure(RepeatedAxis(convention))
    ensures r.Success? ==> InRange(r.value) && r.value.i != r.value.j && r.value.j != r.value.k
    ensures r.Success? ==> [AxisLetter(r.value.i), AxisLetter(r.value.j), AxisLetter(r.value.k)] == convention
  {
    if |convention| != 3 || !(forall n :: 0 <= n < |convention| ==> IsAxisLetter(convention[n])) then
      Failure(MalformedConvention(convention))
    else if convention[0] == convention[1] || convention[1] == convention[2] then
      Failure(RepeatedAxis(convention))
    else
      Success(Axes(AxisIndex(convention[0]), AxisIndex(convention[1]), AxisIndex(convention[2])))
  }

  /** Exactly twelve conventions are accepted: the six symmetric and the six
      asymmetric ones. */
  lemma {:induction false} AcceptedConventions(convention: string)
    ensures Accepted(convention) <==> convention in SymmetricConventions + AsymmetricConventions
    ensures convention in SymmetricConventions <==> Accepted(convention) && convention[0] == convention[2]
    ensures convention in AsymmetricConventions <==> Accepted(convention) && convention[0] != convention[2]
  {
    if Accepted(convention) {
      assert convention == [convention[0], convention[1], convention[2]];
      assert IsAxisLetter(convention[0]) && IsAxisLetter(convention[1]) && IsAxisLetter(convention[2]);
    }
  }

  lemma ConventionCounts()
    ensures |SymmetricConventions| == 6 && |AsymmetricConventions| == 6
    ensures SymmetricConventions !! AsymmetricConventions
    ensures DefaultConvention in SymmetricConventions
  {
  }

  // ---------------------------------------------------------------------------
  // Axis reassignment and permutation sign
  // ---------------------------------------------------------------------------

  /** The axes after the symmetric case has replaced the repeated third axis
      by the one axis the convention does not name. */
  datatype Resolved = Resolved(axes: Axes, symmetric: bool)

  function ResolveAxes(parsed: Axes): (r: Resolved)
    requires InRange(parsed) && parsed.i != parsed.j && parsed.j != parsed.k
    ensures r.symmetric <==> parsed.i == parsed.k
    ensures IsPermutation(r.axes)
    ensures r.axes.i == parsed.i && r.axes.j == parsed.j
    ensures !r.symmetric ==> r.axes.k == parsed.k
  {
    if parsed.i == parsed.k then
      Resolved(Axes(parsed.i, parsed.j, 3 - parsed.i - parsed.j), true)
    else
      Resolved(parsed, false)
  }

  lemma PermutationCases(a: Axes)
    ensures IsPermutation(a) ==> IsCyclic(a) || a == Axes(0, 2, 1) || a == Axes(2, 1, 0) || a == Axes(1, 0, 2)
  {
  }

  /** `-((i - j) * (j - k) * (k - i) // 2)`. Python's `//` floors; Dafny's `/`
      agrees with it for the positive divisor 2. */
  function PermutationSign(a: Axes): (s: int)
    ensures IsPermutation(a) ==> (s == -1 <==> IsCyclic(a)) && (s == 1 <==> !IsCyclic(a))
    ensures a.i == a.j || a.j == a.k || a.k == a.i ==> s == 0
  {
    PermutationCases(a);
    -(((a.i - a.j) * (a.j - a.k) * (a.k - a.i)) / 2)
  }

  // ---------------------------------------------------------------------------
  // Quaternion components and gimbal lock
  // ---------------------------------------------------------------------------

  /** `jnp.roll(s, shift=-1)`: every element moves one place to the left and
      the first one wraps round to the end. */
  function RollLeft<T>(s: seq<T>): (r: seq<T>)
    ensures |r| == |s|
    ensures forall n :: 0 <= n < |s| - 1 ==> r[n] == s[n + 1]
    ensures |s| > 0 ==> r[|s| - 1] == s[0]
  {
    if s == [] then [] else s[1..] + [s[0]]
  }

  /** Rolling (w, x, y, z) left gives (x, y, z, w). */
  lemma RollMovesScalarLast(wxyz: seq<real>)
    requires |wxyz| == 4
    ensures RollLeft(wxyz) == wxyz[1..] + [wxyz[0]]
    ensures RollLeft(wxyz)[3] == wxyz[0] && RollLeft(wxyz)[..3] == wxyz[1..]
  {
  }

  /** The four intermediate quantities a, b, c, d of the decomposition. */
  datatype Terms = Terms(a: real, b: real, c: real, d: real)

  /** The terms read off the quaternion in its scalar-first order
      (w, x, y, z): with v the vector part and (i, j, k) the resolved axes,
      symmetric conventions use (w, -v_i, -v_j, -sign v_k) and asymmetric ones
      (w + v_j, -v_i - sign v_k, w - v_j, v_i - sign v_k). */
  function UnrolledTerms(wxyz: seq<real>, r: Resolved, sign: real): Terms
    requires |wxyz| == 4 && IsPermutation(r.axes)
  {
    var w, v := wxyz[0], wxyz[1..];
    var i, j, k := r.axes.i, r.axes.j, r.axes.k;
    if r.symmetric then Terms(w, -v[i], -v[j], -v[k] * sign)
    else Terms(w + v[j], -v[i] - v[k] * sign, w - v[j], v[i] - v[k] * sign)
  }

  /** The terms as the conversion computes them, indexing the rolled
      quaternion (x, y, z, w); they are the scalar-first terms of the
      quaternion rolled back. */
  function QuaternionTerms(xyzw: seq<real>, r: Resolved, sign: real): (t: Terms)
    requires |xyzw| == 4 && IsPermutation(r.axes)
    ensures t == UnrolledTerms([xyzw[3]] + xyzw[..3], r, sign)
    ensures (sign == 1.0 || sign == -1.0) ==>
              SquaredNorm(t) == (if r.symmetric then 1.0 else 2.0) * QuaternionSquaredNorm(xyzw)
  {
    var i, j, k := r.axes.i, r.axes.j, r.axes.k;
    if r.symmetric then
      var t := Terms(xyzw[3], -xyzw[i], -xyzw[j], -xyzw[k] * sign);
      SymmetricTermsNorm(xyzw, r.axes, sign, t);
      t
    else
      var t := Terms(xyzw[3] + xyzw[j], -xyzw[i] - xyzw[k] * sign, -xyzw[j] + xyzw[3], -xyzw[k] * sign + xyzw[i]);
      AsymmetricTermsNorm(xyzw, r.axes, sign, t);
      t
  }

  /** a^2 + b^2 + c^2 + d^2. */
  function SquaredNorm(t: Terms): real {
    t.a * t.a + t.b * t.b + t.c * t.c + t.d * t.d
  }

  /** The squared norm of a quaternion, in either component order. */
  function QuaternionSquaredNorm(q: seq<real>): real
    requires |q| == 4
  {
    q[0] * q[0] + q[1] * q[1] + q[2] * q[2] + q[3] * q[3]
  }

  /** The three axes of a permutation pick out the three vector components,
      so their squares add up to the squared vector part. */
  lemma AxisSquares(q: seq<real>, a: Axes)
    requires |q| == 4 && IsPermutation(a)
    ensures q[a.i] * q[a.i] + q[a.j] * q[a.j] + q[a.k] * q[a.k] == q[0] * q[0] + q[1] * q[1] + q[2] * q[2]
  {
    PermutationCases(a);
  }

  /** The symmetric terms only permute the components and change their signs,
      so they keep the squared norm. */
  lemma SymmetricTermsNorm(q: seq<real>, a: Axes, sign: real, t: Terms)
    requires |q| == 4 && IsPermutation(a)
    requires t == Terms(q[3], -q[a.i], -q[a.j], -q[a.k] * sign)
    ensures (sign == 1.0 || sign == -1.0) ==> SquaredNorm(t) == QuaternionSquaredNorm(q)
  {
    if sign == 1.0 || sign == -1.0 {
      AxisSquares(q, a);
      assert t.d * t.d == q[a.k] * q[a.k] * (sign * sign);
    }
  }

  /** The asymmetric terms are sums and differences of pairs of components,
      so they double the squared norm. */
  lemma AsymmetricTermsNorm(q: seq<real>, a: Axes, sign: real, t: Terms)
    requires |q| == 4 && IsPermutation(a)
    requires t == Terms(q[3] + q[a.j], -q[a.i] - q[a.k] * sign, -q[a.j] + q[3], -q[a.k] * sign + q[a.i])
    ensures (sign == 1.0 || sign == -1.0) ==> SquaredNorm(t) == 2.0 * QuaternionSquaredNorm(q)
  {
    if sign == 1.0 || sign == -1.0 {
      AxisSquares(q, a);
      var w, vi, vj, u := q[3], q[a.i], q[a.j], q[a.k] * sign;
      assert u * u == q[a.k] * q[a.k] * (sign * sign);
      assert t.a * t.a + t.c * t.c == 2.0 * (w * w + vj * vj);
      assert t.b * t.b + t.d * t.d == 2.0 * (vi * vi + u * u);
    }
  }

  /** Rolling the scalar to the back and indexing the result gives the
      scalar-first terms: the roll and the index arithmetic agree. */
  lemma QuaternionTermsOfRolled(wxyz: seq<real>, r: Resolved, sign: real)
    requires |wxyz| == 4 && IsPermutation(r.axes)
    ensures QuaternionTerms(RollLeft(wxyz), r, sign) == UnrolledTerms(wxyz, r, sign)
  {
  }

  /** Classifies the middle angle: 0 in general, 1 at the north pole
      (theta near 0), 2 at the south pole (theta near pi). The test for 1 is
      applied last, so it wins if both hold. */
  function DegeneracyCase(theta: real): (c: int)
    ensures 0 <= c <= 2
    ensures c == 1 <==> Abs(theta) <= Eps
    ensures c == 2 <==> Abs(theta) > Eps && Abs(theta - Pi) <= Eps
    ensures c == 0 <==> Abs(theta) > Eps && Abs(theta - Pi) > Eps
  {
    var south := if Abs(theta - Pi) <= Eps then 2 else 0;
    if Abs(theta) <= Eps then 1 else south
  }

  /** The two tolerance bands do not overlap, so the precedence of case 1
      never decides anything. */
  lemma PolesAreApart(theta: real)
    ensures !(Abs(theta) <= Eps && Abs(theta - Pi) <= Eps)
    ensures DegeneracyCase(theta) == 2 <==> Abs(theta - Pi) <= Eps
  {
  }

  // ---------------------------------------------------------------------------
  // Angle assembly
  // ---------------------------------------------------------------------------

  /** The value of a slot `jnp.empty` created and nothing assigned: JAX fills
      new arrays with zeros. */
  const Unassigned: real := 0.0

  /** The three angles before the final wrap, assembled step by step as the
      conversion updates its array: the degenerate first angle, the general
      first and third angles, the sign of an asymmetric third angle and the
      quarter-turn shift of an asymmetric middle angle. */
  function AssembleAngles(theta: real, halfSum: real, halfDiff: real, symmetric: bool, sign: real): (e: EulerTriple)
    ensures DegeneracyCase(theta) == 0 ==>
              e.first == halfSum - halfDiff &&
              e.third == (if symmetric then halfSum + halfDiff else sign * (halfSum + halfDiff))
    ensures DegeneracyCase(theta) == 1 ==> e.first == 2.0 * halfSum && e.third == 0.0
    ensures DegeneracyCase(theta) == 2 ==> e.first == -2.0 * halfDiff && e.third == 0.0
    ensures symmetric ==> e.second == theta
    ensures !symmetric ==> e.second == theta - Pi / 2.0
  {
    var c := DegeneracyCase(theta);
    var degenerateFirst := if c == 1 then 2.0 * halfSum else 2.0 * halfDiff * -1.0;
    var first := if c == 0 then halfSum - halfDiff else degenerateFirst;
    var third := if c == 0 then halfSum + halfDiff else Unassigned;
    var signedThird := if symmetric then third else third * sign;
    var second := if symmetric then theta else theta - Pi / 2.0;
    EulerTriple(first, second, signedThird)
  }

  /** The pieces the angles are built from. */
  datatype Parts = Parts(theta: real, halfSum: real, halfDiff: real, sign: real)

  /** The middle angle, the two half angles and the permutation sign, in terms
      of the scalar-first quaternion. */
  function Decompose(wxyz: seq<real>, trig: Trig, r: Resolved): (p: Parts)
    requires |wxyz| == 4 && IsPermutation(r.axes)
    ensures (p.sign == 1.0 || p.sign == -1.0) && (p.sign == -1.0 <==> IsCyclic(r.axes))
    ensures var t := UnrolledTerms(wxyz, r, p.sign);
            && p.theta == 2.0 * trig.atan2(trig.hypot(t.c, t.d), trig.hypot(t.a, t.b))
            && p.halfSum == trig.atan2(t.b, t.a)
            && p.halfDiff == trig.atan2(t.d, t.c)
  {
    var xyzw := RollLeft(wxyz);
    var sign := PermutationSign(r.axes) as real;
    QuaternionTermsOfRolled(wxyz, r, sign);
    var t := QuaternionTerms(xyzw, r, sign);
    var theta := 2.0 * trig.atan2(trig.hypot(t.c, t.d), trig.hypot(t.a, t.b));
    Parts(theta, trig.atan2(t.b, t.a), trig.atan2(t.d, t.c), sign)
  }

  /** The angles before the final wrap: the case analysis of the assembly
      applied to the decomposition of the quaternion. */
  function Unwrapped(wxyz: seq<real>, trig: Trig, r: Resolved): (e: EulerTriple)
    requires |wxyz| == 4 && IsPermutation(r.axes)
    ensures var p := Decompose(wxyz, trig, r);
            var c := DegeneracyCase(p.theta);
            && (c == 0 ==> e.first == p.halfSum - p.halfDiff)
            && (c == 0 && r.symmetric ==> e.third == p.halfSum + p.halfDiff)
            && (c == 0 && !r.symmetric ==> e.third == p.sign * (p.halfSum + p.halfDiff))
            && (c == 1 ==> e.first == 2.0 * p.halfSum && e.third == 0.0)
            && (c == 2 ==> e.first == -2.0 * p.halfDiff && e.third == 0.0)
            && e.second == (if r.symmetric then p.theta else p.theta - Pi / 2.0)
  {
    var p := Decompose(wxyz, trig, r);
    AssembleAngles(p.theta, p.halfSum, p.halfDiff, r.symmetric, p.sign)
  }

  predicate InPrincipalRange(e: EulerTriple) {
    -Pi <= e.first < Pi && -Pi <= e.second < Pi && -Pi <= e.third < Pi
  }

  predicate CoterminalTriple(e: EulerTriple, f: EulerTriple) {
    Coterminal(e.first, f.first) && Coterminal(e.second, f.second) && Coterminal(e.third, f.third)
  }

  /** The axes a convention the conversion accepts resolves to. */
  function ResolvedAxes(convention: string): (r: Resolved)
    requires Accepted(convention)
    ensures IsPermutation(r.axes)
    ensures r.symmetric <==> convention[0] == convention[2]
  {
    var parsed := ParseConvention(convention).value;
    ResolveAxes(parsed)
  }

  /** The conversion in radians, before `jnp.rad2deg`. */
  function EulerRadians(wxyz: seq<real>, trig: Trig, convention: string := DefaultConvention): (r: Result<EulerTriple>)
    requires |wxyz| == 4
    ensures r.Success? <==> Accepted(convention)
    ensures !WellFormed(convention) ==> r == Failure(MalformedConvention(convention))
    ensures WellFormed(convention) && !Accepted(convention) ==> r == Failure(RepeatedAxis(convention))
    ensures r.Success? ==> InPrincipalRange(r.value)
    ensures r.Success? ==> CoterminalTriple(r.value, Unwrapped(wxyz, trig, ResolvedAxes(convention)))
  {
    var parsed :- ParseConvention(convention);
    var u := Unwrapped(wxyz, trig, ResolveAxes(parsed));
    Success(EulerTriple(Wrap(u.first), Wrap(u.second), Wrap(u.third)))
  }

  function ToDegrees(e: EulerTriple): EulerTriple {
    EulerTriple(RadToDeg(e.first), RadToDeg(e.second), RadToDeg(e.third))
  }

  /** `convert_quaternion_to_euler_angles`: the angles in degrees. */
  function ConvertQuaternionToEulerAngles(wxyz: seq<real>, trig: Trig, convention: string := DefaultConvention)
    : (r: Result<EulerTriple>)
    requires |wxyz| == 4
    ensures r.Success? <==> Accepted(convention)
    ensures !WellFormed(convention) ==> r == Failure(MalformedConvention(convention))
    ensures WellFormed(convention) && !Accepted(convention) ==> r == Failure(RepeatedAxis(convention))
    ensures r.Success? ==>
              -180.0 <= r.value.first < 180.0 &&
              -180.0 <= r.value.second < 180.0 &&
              -180.0 <= r.value.third < 180.0
    ensures r.Success? ==>
              var e := EulerRadians(wxyz, trig, convention).value;
              r.value.first * Pi == e.first * 180.0 &&
              r.value.second * Pi == e.second * 180.0 &&
              r.value.third * Pi == e.third * 180.0
  {
    var radians :- EulerRadians(wxyz, trig, convention);
    PrincipalInDegrees(radians.first);
    PrincipalInDegrees(radians.second);
    PrincipalInDegrees(radians.third);
    Success(ToDegrees(radians))
  }

  /** What each case of the decomposition leaves in the three angles, up to
      whole turns: in general the first and third angles are the difference
      and the sum of the half angles, the third signed for asymmetric
      conventions; at either pole the whole rotation goes into the first angle
      and the third is exactly zero. */
  lemma EulerRadiansCases(wxyz: seq<real>, trig: Trig, convention: string)
    requires |wxyz| == 4 && Accepted(convention)
    ensures var e := EulerRadians(wxyz, trig, convention).value;
            var r := ResolvedAxes(convention);
            var p := Decompose(wxyz, trig, r);
            var c := DegeneracyCase(p.theta);
            && (p.sign == 1.0 || p.sign == -1.0)
            && (p.sign == -1.0 <==> IsCyclic(r.axes))
            && (c == 0 ==> Coterminal(e.first, p.halfSum - p.halfDiff))
            && (c == 0 && r.symmetric ==> Coterminal(e.third, p.halfSum + p.halfDiff))
            && (c == 0 && !r.symmetric ==> Coterminal(e.third, p.sign * (p.halfSum + p.halfDiff)))
            && (c == 1 ==> Coterminal(e.first, 2.0 * p.halfSum) && e.third == 0.0)
            && (c == 2 ==> Coterminal(e.first, -2.0 * p.halfDiff) && e.third == 0.0)
            && (r.symmetric ==> Coterminal(e.second, p.theta))
            && (!r.symmetric ==> Coterminal(e.second, p.theta - Pi / 2.0))
  {
    WrapFixesPrincipal(0.0);
  }

  /** At either pole the third angle comes out as exactly zero degrees. */
  lemma GimbalLockZeroesThirdAngle(wxyz: seq<real>, trig: Trig, convention: string)
    requires |wxyz| == 4 && Accepted(convention)
    requires DegeneracyCase(Decompose(wxyz, trig, ResolvedAxes(convention)).theta) != 0
    ensures ConvertQuaternionToEulerAngles(wxyz, trig, convention).value.third == 0.0
  {
    EulerRadiansCases(wxyz, trig, convention);
    assert EulerRadians(wxyz, trig, convention).value.third == 0.0;
  }
}
